=== FILE: README.md ===
# Movie recommender core in Dafny

A model of the pure logic of a small content-based movie recommender. The
original system has three parts:

- An offline text cleaner (`src/preprocessing.py`). It lowercases a column,
  deletes everything outside `[a-zA-Z\s]`, splits the text into words, drops
  stopwords and rejoins the words with single spaces. The `content` column is
  the space-join of five cleaned columns.
- An offline sentiment labeller (`src/sentiment_analysis.py`). It maps a
  VADER compound score to a `positive`/`negative`/`neutral` label and to a
  0..100 integer percentage.
- A query-time web app (`src/app.py`):
  - `get_recommendations` resolves a title case-insensitively and
    stable-sorts that movie's cosine-similarity row in descending order. It
    drops sorted position 0, keeps positions 1..10, and decorates each kept
    movie with TMDB metadata, using placeholders when there is none.
  - `search_suggestions` lists up to ten titles that contain the query.
  - `fetch_tmdb_data` extracts link, release date, runtime, language, cast
    and director from the TMDB responses.

Modules:

| module | file | what it holds |
|---|---|---|
| `Base` | base.dfy | `Option`, order-preserving `Filter` with its characterisation, `IsSubseq`, `JoinWith` |
| `Chars` | chars.dfy | ASCII case mapping, Python's whitespace set, `capitalize`, decimal rendering of integers |
| `Preprocessing` | preprocessing.dfy | `clean_text`, whitespace tokenizer, `content` |
| `Sentiment` | sentiment.dfy | `get_sentiment_label`, `convert_to_percentage` |
| `Ranking` | ranking.dfy | the stable descending ranking of a similarity row and its `[1:11]` slice |
| `Tmdb` | tmdb.dfy | the field extraction of `fetch_tmdb_data` |
| `App` | app.dfy | title lookup, `get_recommendations`, `search_suggestions` |

Two behaviours of the code are worth knowing before reading the lemmas:

- **Sorted position 0 is dropped, not the query row.** A row is
  recommended exactly when at least one and at most ten rows rank before it
  (`Ranking.SelectedIffRank`). A row ranks before another when it has a
  strictly higher score, or the same score and a lower index. The query row
  is left out exactly when it heads its own ranking or more than ten rows
  rank before it (`Ranking.QueryExcludedIff`). When the query row's score is
  strictly the highest in its row, it is always left out
  (`Ranking.QueryExcludedWhenStrictMax`). A query row that ties a later row
  at the top also heads the ranking and is left out
  (`Ranking.TieWithLaterRowExample`). When an earlier row ties it at the top
  and every other score is lower, the query movie is recommended to itself,
  first (`Ranking.QueryIncludedAfterEarlierTie`,
  `App.QueryRecommendedToItself`, `App.SelfRecommendationExample`). With a
  three-way tie it comes second (`Ranking.ThreeWayTieExample`).
- **The percentage is truncated toward zero and not clamped.** Python's
  `int` truncates, so a score just below -1 gives 0 where a floor would give
  -1 (`Sentiment.PercentageTruncatesTowardZero`). A score above 1 gives a
  value above 100 (`Sentiment.PercentageUnclamped`).

Inputs the model takes as parameters:

- the cosine-similarity matrix, an `n` by `n` matrix of reals;
- the TMDB lookup, a function from title to `Option<MovieDetails>`;
- the decoded TMDB responses;
- the stopword list, a `set<string>`;
- the VADER compound score.

## Model

| member | source | states |
|---|---|---|
| App.FindTitle | src/app.py:71-75 | `None` exactly when no catalog title equals the query up to case; otherwise a valid row whose title matches, with no matching row before it (first match wins) |
| App.GetRecommendations | src/app.py:70-99 | `None` exactly when no title matches; otherwise exactly `min(10, N-1)` entries, where entry `k` is sorted position `k+1` of the first matching row's similarity row, decorated with that movie's TMDB lookup |
| App.Enrich | src/app.py:83-97 | title, genres, sentiment and score are copied from the row; overview is capitalized; without metadata the link is "#" and cast, director, release date, runtime and language are "N/A"; with metadata those fields are copied |
| App.RuntimeMinutesText | src/app.py:95 | the runtime text ends in " minutes" and begins with the decimal rendering of the runtime; a JSON `null` runtime reads "None minutes" |
| App.RuntimeText | src/app.py:95 | the runtime cell is "N/A" when there is no metadata or its runtime key was absent, and otherwise the "<runtime> minutes" text |
| App.RuntimeShownIffKnown | src/app.py:95 | the runtime cell reads "... minutes" if and only if metadata was found and it had a runtime key |
| App.PlaceholdersWithoutMetadata | src/app.py:91-96 | when the TMDB lookup never finds anything, every one of the `min(10, N-1)` recommendations carries all placeholders |
| App.QueryRecommendedToItself | src/app.py:75-78 | if exactly one earlier row ties the query row's self-score and every other score is lower, the first recommendation is the query row itself, enriched with its own TMDB lookup |
| App.SelfRecommendationExample | src/app.py:75-78 | a concrete two-movie catalog in which asking for "b" recommends "B" |
| App.Suggests | src/app.py:109 | a title is suggested exactly when, at some position, each character of the query equals the title's character there up to ASCII case |
| App.SearchSuggestions | src/app.py:107-110 | exactly the first `min(10, M)` of the `M` matching titles, in catalog order with repeated titles kept; each contains the query up to case; fewer than ten only when every matching title is listed |
| App.SuggestionsKeepRepeatedTitles | src/app.py:109-110 | two movies with the same title are both suggested |
| App.EmptyQuerySuggestsFirstTitles | src/app.py:108-110 | the empty query suggests exactly the first `min(10, N)` titles |
| Ranking.Ranked | src/app.py:76-77 | the ranking lists every row index exactly once, with scores non-increasing and ties in ascending index order |
| Ranking.RankingUnique | src/app.py:77 | any order with those properties equals `Ranked`, so the stable descending sort is fully determined |
| Ranking.LeaderIsFirstArgmax | src/app.py:77 | the head of the ranking has the highest score, and every earlier index scores strictly lower |
| Ranking.Selected | src/app.py:78 | `min(10, N-1)` indices (0 for an empty row), strictly ranked and so pairwise distinct and valid, equal to sorted positions 1..10 |
| Ranking.SelectedOutrankTheRest | src/app.py:77-78 | every index that is neither selected nor at sorted position 0 ranks behind every selected index |
| Ranking.SelectedIffRank | src/app.py:77-78 | a row is selected if and only if between one and ten rows rank before it (a strictly higher score, or an equal score and a lower index); it heads the ranking if and only if none do |
| Ranking.QueryExcludedIff | src/app.py:75-78 | the query row is left out if and only if it heads its own ranking or more than ten rows rank before it |
| Ranking.QueryExcludedWhenStrictMax | src/app.py:75-78 | the query row is not selected when its own score is strictly above every other score in its row |
| Ranking.QueryIncludedAfterEarlierTie | src/app.py:75-78 | when exactly one earlier row ties the query row's score and every other score in the row is strictly lower, the query row is the first selected index |
| Ranking.TieWithLaterRowExample | src/app.py:77-78 | in the row [1, 1] the query row 0 heads the ranking and is not selected |
| Ranking.ThreeWayTieExample | src/app.py:77-78 | in the row [1, 1, 1] the selection is rows 1 and 2, so query row 2 comes second |
| Tmdb.FirstDirector | src/app.py:54 | "N/A" when no crew entry has job "Director"; otherwise the name of the first such entry |
| Tmdb.CastLine | src/app.py:63 | "N/A" for an empty cast list; otherwise the ", "-join of the names of the first `min(5, n)` of the `n` members (line 55) |
| Tmdb.CastLineTopFive | src/app.py:55 | appending members after the fifth never changes the cast line |
| Tmdb.MovieLink | src/app.py:59 | the link is the TMDB movie prefix followed by the id in decimal |
| Tmdb.RuntimeOf | src/app.py:61 | the runtime field is the "N/A" placeholder exactly when the details lack the key; otherwise it is the given value |
| Tmdb.LanguageOf | src/app.py:62 | no lowercase letters; "N/A" when the key is absent; otherwise the response's language code up to case |
| Tmdb.MovieDetailsOf | src/app.py:54-65 | each field is its extraction from the details and credits, with "N/A" for a missing release date, crew or cast |
| Tmdb.FetchTmdbData | src/app.py:39-67 | `None` exactly when the search has no results; otherwise the details of the first search result |
| Chars.Capitalize | src/app.py:87 | same length, first character not lowercase, no uppercase letter after it, and equal to the input up to case |
| Chars.Lower | src/preprocessing.py:24 | same length, no uppercase letter; each uppercase ASCII letter becomes its lowercase counterpart and every other character is unchanged (also src/app.py:71-72 and :108) |
| Chars.IntToString | src/app.py:59 | a leading "-" exactly for negative numbers, then digits that parse back to the absolute value, with no leading zero except for 0 itself |
| Preprocessing.StripNonLetters | src/preprocessing.py:26 | only ASCII letters and whitespace remain, in their original order, each kept character as often as in the input |
| Preprocessing.Tokens | src/preprocessing.py:28 | every token is a non-empty run of non-whitespace characters taken from the text; TokensAroundSpace, TokensOfWord and TokensEmptyIffBlank pin the split down |
| Preprocessing.TokensOfWord | src/preprocessing.py:28 | a single word splits into exactly itself |
| Preprocessing.TokensEmptyIffBlank | src/preprocessing.py:28 | text splits into no tokens if and only if it is all whitespace |
| Preprocessing.TokensAroundSpace | src/preprocessing.py:28 | a whitespace character separates tokens: the tokens of `a c b` are those of `a` followed by those of `b` |
| Preprocessing.TokensOfJoin | src/preprocessing.py:28-32 | splitting the single-space join of words gives back the same words |
| Base.JoinWith | src/preprocessing.py:32 | the join is empty for no strings; otherwise it starts with the first string and its length is the strings' total plus one separator fewer than there are strings (also the ", " join at src/app.py:63) |
| Base.JoinWithSnoc | src/preprocessing.py:32 | appending a string to the list appends the separator and that string to the join |
| Preprocessing.JoinSingleSpaced | src/preprocessing.py:32 | the single-space join of words has no leading, trailing or repeated whitespace |
| Preprocessing.SingleSpacedIffCanonical | src/preprocessing.py:28-32 | text equals the join of its own tokens if and only if it is words separated by single spaces with no leading or trailing space |
| Preprocessing.RemoveStopwords | src/preprocessing.py:30 | no stopword survives; the result is an order-preserving subsequence; every non-stopword keeps its multiplicity |
| Preprocessing.CleanTokensAreClean | src/preprocessing.py:24-30 | every kept word is non-empty and made only of lowercase ASCII letters |
| Preprocessing.CleanText | src/preprocessing.py:23-33 | output characters are lowercase ASCII letters or spaces; single-spaced; its tokens are the stripped text's tokens minus stopwords, in order; no token is a stopword |
| Preprocessing.CleanTextEmpty | src/preprocessing.py:23-33 | input whose every word is a stopword, including empty input, cleans to "" |
| Preprocessing.CleanTextIdempotent | src/preprocessing.py:23-33 | cleaning cleaned text changes nothing |
| Preprocessing.Content | src/preprocessing.py:40 | the content is exactly the single-space join of overview, genres, cast, keywords and director, in that order; its tokens are the five fields' tokens concatenated in order, and its length is their total plus four separators |
| Preprocessing.EmptyOverviewBreaksSpacing | src/preprocessing.py:40 | a column that cleans to "" still contributes its separator: with an empty overview the content starts with a space and is not single-spaced |
| Preprocessing.Preprocess | src/preprocessing.py:36-40 | every text column is its cleaned form, and the content is exactly `Content` of the five cleaned columns; so its tokens are the concatenation of the cleaned columns' words, it holds only lowercase letters and spaces, and it contains no stopword |
| Sentiment.LabelOf | src/sentiment_analysis.py:16-22 | positive if and only if score ≥ 0.05; negative if and only if score ≤ -0.05; neutral if and only if strictly between |
| Sentiment.LabelName | src/sentiment_analysis.py:16-22 | positive is written "positive", negative "negative" and neutral "neutral", and no other name is used |
| Sentiment.Truncate | src/sentiment_analysis.py:25 | Python's `int` on a float: floor for non-negative values, ceiling for negative ones |
| Sentiment.Percentage | src/sentiment_analysis.py:24-25 | lies in [0, 100] for scores in [-1, 1], and is the integer part of `(score + 1) * 50` for scores ≥ -1 |
| Sentiment.PercentageMonotone | src/sentiment_analysis.py:25 | a higher score never gives a lower percentage |
| Sentiment.PercentageAnchors | src/sentiment_analysis.py:25 | -1 maps to 0, 0 to 50 and 1 to 100 |
| Sentiment.PercentageUnclamped | src/sentiment_analysis.py:25 | there is no clamping: 2.0 maps to 150 |
| Sentiment.PercentageTruncatesTowardZero | src/sentiment_analysis.py:25 | -1.01 maps to 0, where a floor would give -1 |
| Sentiment.LabelAgreesWithPercentage | src/sentiment_analysis.py:16-25 | positive implies at least 52, negative at most 47, neutral between 47 and 52 |
| Sentiment.ScoreReview | src/sentiment_analysis.py:28-30 | for a compound score in [-1, 1], the score column is the percentage of the compound score and lies in [0, 100]; the label is "positive", "negative" or "neutral" exactly in the three threshold ranges; the two columns agree |

## Left out

- Network I/O: the HTTP requests of `fetch_tmdb_data`. The decoded search,
  details and credits responses are inputs. src/recommendation.py and
  src/datascraping.py are not part of this model.
- The Flask routes (`home`, `results`), templates, `load_dotenv` and the
  environment variables: presentation and configuration.
- Building the TF-IDF matrix and the cosine similarity (src/app.py:25-27,
  src/preprocessing.py:46-51). The similarity matrix is an input matrix of
  reals. Neither symmetry nor a unit diagonal is assumed.
- Floating point: scores are exact reals, so NaN, infinities and rounding
  are not modelled.
- The VADER compound score (src/sentiment_analysis.py:28) comes from a
  foreign lexicon model and is an input.
- Sentiment.ScoreReview: requires the compound score to lie in [-1, 1],
  which VADER guarantees. `Percentage` itself is defined for every score.
- Preprocessing.Tokens: models NLTK's `word_tokenize` as whitespace
  splitting (`str.split()`). After non-letters are stripped, the Treebank
  tokenizer still splits a few contractions that whitespace splitting keeps
  whole: "cannot", "gimme", "gonna", "gotta", "lemme", and "wanna" before
  whitespace. The idempotence of cleaning holds for this model.
- The stopword list is NLTK's English corpus, a foreign resource. It is a
  `set<string>` parameter.
- Chars.Lower: ASCII case folding only. Python's Unicode `str.lower` can
  change string length and is not modelled.
- Chars.Capitalize: ASCII only. Python's `str.capitalize` title-cases the
  first character and lowercases the rest over all of Unicode.
- App.SearchSuggestions: `str.contains` interprets the query as a regular
  expression. The model reads it as a plain substring, so queries with
  regex metacharacters (one of which, "(", raises) are not modelled.
- pandas plumbing: `dropna`, `drop_duplicates`, `train_test_split`, CSV
  reading and writing, `astype(str)`, and the display-only `"{x}/100"`
  column (src/sentiment_analysis.py:36).
- Tmdb.RuntimeOf: the JSON `runtime` value is an integer or `null`. Other
  JSON types are not modelled. `null` prints as "None minutes"
  (`App.RuntimeMinutesText`).
- Tmdb.FetchTmdbData: a search result or crew entry without its `id`,
  `job` or `name` key raises a `KeyError` in the source. The model assumes
  those keys are present.
- Tmdb.LanguageOf: upper-cases with ASCII case mapping only. Python's
  Unicode `str.upper` can lengthen a string ("ß" becomes "SS"), which the
  same-length clause does not allow; TMDB language codes are ASCII. A JSON
  `null` language raises `AttributeError` in the source (src/app.py:62) and
  is not modelled: `Details.originalLanguage` is either absent or a string.
- Tmdb.MovieDetailsOf: a JSON `null` release date is copied through as
  Python's `None` and shown as "None" (src/app.py:60, :94). The model's
  release date is either absent or a string, so this case is not modelled.
- App.GetRecommendations: a failed TMDB request or a non-JSON response
  (src/app.py:37, :47, :51) raises out of `get_recommendations`, since
  nothing catches it around line 84. The model's lookup returns a movie's
  details or `None` and never fails, so that exception path is not modelled.

=== FILE: app.dfy ===
/** The query-time logic of src/app.py: resolving a title, ranking its
    similarity row, projecting the recommended rows with their TMDB metadata
    or placeholders, and the search-suggestion filter. The catalog is the
    reloaded CSV, so row labels are positions; the cosine-similarity matrix
    is an input; the TMDB lookup is a parameter (`None` when the movie is not
    found there). */
module App {
  import opened Base
  import opened Chars
  import opened Ranking
  import opened Tmdb

  /** The columns of `movie_data_with_sentiment.csv` that are read. */
  datatype Movie = Movie(
    originalTitle: string,
    overview: string,
    genres: string,
    sentiment: string,
    sentimentScore: int)

  /** One entry of the list handed to the results page. */
  datatype Recommendation = Recommendation(
    title: string,
    overview: string,
    genres: string,
    sentiment: string,
    sentimentScore: int,
    tmdbLink: string,
    cast: string,
    director: string,
    releaseDate: string,
    runtime: string,
    language: string)

  /** The most recommendations and the most suggestions returned. */
  const MaxResults: nat := 10

  /** The link shown when a movie has no TMDB metadata. */
  const NoLink: string := "#"

  const MinutesSuffix: string := " minutes"

  /** The catalog row's title equals the query up to case. */
  predicate TitleMatches(m: Movie, title: string)
  {
    Lower(m.originalTitle) == Lower(title)
  }

  /** The title lookup of src/app.py lines 71-75: the lowest catalog row
      whose title equals the query up to case, or `None` when no row does
      (the membership test that precedes the lookup). */
  function FindTitle(catalog: seq<Movie>, title: string): (r: Option<nat>)
    ensures r.None? <==> forall i :: 0 <= i < |catalog| ==> !TitleMatches(catalog[i], title)
    ensures r.Some? ==> r.value < |catalog| && TitleMatches(catalog[r.value], title)
    ensures r.Some? ==> forall i :: 0 <= i < r.value ==> !TitleMatches(catalog[i], title)
    decreases |catalog|
  {
    if catalog == [] then None
    else if TitleMatches(catalog[0], title) then Some(0)
    else
      var rest := FindTitle(catalog[1..], title);
      assert forall i :: 1 <= i < |catalog| ==> catalog[i] == catalog[1..][i - 1];
      match rest
      case None => None
      case Some(i) => Some(i + 1)
  }

  /** `cosine_similarity(X, X)` for a catalog of `n` movies is `n` by `n`. */
  predicate IsSimilarityMatrix(sim: seq<seq<real>>, n: nat)
  {
    |sim| == n && forall i :: 0 <= i < n ==> |sim[i]| == n
  }

  /** The runtime in decimal followed by " minutes" (src/app.py line 95);
      a JSON `null` runtime is printed by Python as "None". */
  function RuntimeMinutesText(v: RuntimeValue): (s: string)
    ensures |s| > |MinutesSuffix| && s[|s| - |MinutesSuffix|..] == MinutesSuffix
    ensures v.RuntimeMinutes? ==> s[..|s| - |MinutesSuffix|] == IntToString(v.minutes)
    ensures v.RuntimeNull? ==> s == "None" + MinutesSuffix
  {
    var shown := match v
      case RuntimeMinutes(n) => IntToString(n)
      case RuntimeNull => "None";
    var s := shown + MinutesSuffix;
    assert s[..|s| - |MinutesSuffix|] == shown;
    s
  }

  /** The runtime cell: "<runtime> minutes" only when metadata exists and
      its runtime is not the "N/A" placeholder; "N/A" otherwise. */
  function RuntimeText(meta: Option<MovieDetails>): (s: string)
    ensures meta.None? || meta.value.runtime.RuntimeNA? ==> s == NotAvailable
    ensures meta.Some? && meta.value.runtime.RuntimeGiven? ==> s == RuntimeMinutesText(meta.value.runtime.value)
  {
    if meta.Some? && meta.value.runtime != RuntimeNA then RuntimeMinutesText(meta.value.runtime.value)
    else NotAvailable
  }

  /** One loop iteration of lines 83-97: the row's own columns (overview
      capitalized), then the TMDB fields, each replaced by its placeholder
      when the lookup found nothing. */
  function Enrich(m: Movie, meta: Option<MovieDetails>): (r: Recommendation)
    ensures r.title == m.originalTitle && r.genres == m.genres
    ensures r.sentiment == m.sentiment && r.sentimentScore == m.sentimentScore
    ensures r.overview == Capitalize(m.overview)
    ensures meta.None? ==>
      && r.tmdbLink == NoLink
      && r.cast == NotAvailable && r.director == NotAvailable
      && r.releaseDate == NotAvailable && r.runtime == NotAvailable
      && r.language == NotAvailable
    ensures meta.Some? ==>
      && r.tmdbLink == meta.value.tmdbLink
      && r.cast == meta.value.cast && r.director == meta.value.director
      && r.releaseDate == meta.value.releaseDate && r.language == meta.value.language
    ensures r.runtime == RuntimeText(meta)
  {
    match meta
    case None =>
      Recommendation(m.originalTitle, Capitalize(m.overview), m.genres, m.sentiment, m.sentimentScore,
                     NoLink, NotAvailable, NotAvailable, NotAvailable, NotAvailable, NotAvailable)
    case Some(d) =>
      Recommendation(m.originalTitle, Capitalize(m.overview), m.genres, m.sentiment, m.sentimentScore,
                     d.tmdbLink, d.cast, d.director, d.releaseDate, RuntimeText(meta), d.language)
  }

  /** The runtime cell reads "... minutes" exactly when metadata was found
      and carried a runtime; every other case shows the placeholder. */
  lemma RuntimeShownIffKnown(m: Movie, meta: Option<MovieDetails>)
    ensures var s := Enrich(m, meta).runtime;
      (|s| > |MinutesSuffix| && s[|s| - |MinutesSuffix|..] == MinutesSuffix)
      <==> (meta.Some? && meta.value.runtime.RuntimeGiven?)
  {
    var s := Enrich(m, meta).runtime;
    if !(meta.Some? && meta.value.runtime.RuntimeGiven?) {
      assert s == NotAvailable;
      assert |s| <= |MinutesSuffix|;
    }
  }

  /** `get_recommendations(title, data, cosine_sim)`: `None` exactly when no
      title matches; otherwise one entry per sorted position 1..10 of the
      first matching row's similarity row, in ranked order, each built from
      that catalog row and the TMDB lookup of its title. */
  function GetRecommendations(
    title: string, catalog: seq<Movie>, sim: seq<seq<real>>,
    fetch: string -> Option<MovieDetails>): (r: Option<seq<Recommendation>>)
    requires IsSimilarityMatrix(sim, |catalog|)
    ensures r.None? <==> forall i :: 0 <= i < |catalog| ==> !TitleMatches(catalog[i], title)
    ensures r.Some? ==> FindTitle(catalog, title).Some? && |r.value| == Min(MaxResults, |catalog| - 1)
    ensures r.Some? ==>
      var sel := Selected(sim[FindTitle(catalog, title).value]);
      && |sel| == |r.value|
      && forall k :: 0 <= k < |r.value| ==>
           sel[k] < |catalog|
           && r.value[k] == Enrich(catalog[sel[k]], fetch(catalog[sel[k]].originalTitle))
  {
    match FindTitle(catalog, title)
    case None => None
    case Some(idx) =>
      var sel := Selected(sim[idx]);
      Some(seq(|sel|, k requires 0 <= k < |sel| =>
        var m := catalog[sel[k]];
        Enrich(m, fetch(m.originalTitle))))
  }

  /** With no TMDB metadata at all, every recommendation still comes back,
      carrying placeholders in every metadata field. */
  lemma PlaceholdersWithoutMetadata(title: string, catalog: seq<Movie>, sim: seq<seq<real>>)
    requires IsSimilarityMatrix(sim, |catalog|)
    requires FindTitle(catalog, title).Some?
    ensures var r := GetRecommendations(title, catalog, sim, (t: string) => None);
      && r.Some?
      && |r.value| == Min(MaxResults, |catalog| - 1)
      && forall k :: 0 <= k < |r.value| ==>
           r.value[k].tmdbLink == NoLink && r.value[k].cast == NotAvailable
           && r.value[k].director == NotAvailable && r.value[k].releaseDate == NotAvailable
           && r.value[k].runtime == NotAvailable && r.value[k].language == NotAvailable
  {
  }

  /** The query movie is recommended to itself when an earlier catalog row
      ties its top similarity score: that row takes sorted position 0, which
      is the one dropped, and the query row comes first. */
  lemma QueryRecommendedToItself(
    title: string, catalog: seq<Movie>, sim: seq<seq<real>>,
    fetch: string -> Option<MovieDetails>, j0: nat)
    requires IsSimilarityMatrix(sim, |catalog|)
    requires FindTitle(catalog, title).Some?
    requires var idx := FindTitle(catalog, title).value;
      && j0 < idx
      && sim[idx][j0] == sim[idx][idx]
      && forall j :: 0 <= j < |catalog| && j != j0 && j != idx ==> sim[idx][j] < sim[idx][idx]
    ensures var idx := FindTitle(catalog, title).value;
      var r := GetRecommendations(title, catalog, sim, fetch);
      && r.Some? && |r.value| > 0
      && r.value[0] == Enrich(catalog[idx], fetch(catalog[idx].originalTitle))
  {
    var idx := FindTitle(catalog, title).value;
    QueryIncludedAfterEarlierTie(sim[idx], idx, j0);
  }

  /** A concrete instance: two movies whose similarity row for "B" is a tie;
      asking for "b" recommends "B" itself. */
  lemma SelfRecommendationExample()
    ensures var catalog := [Movie("A", "", "", "neutral", 50), Movie("B", "", "", "neutral", 50)];
      var r := GetRecommendations("b", catalog, [[1.0, 1.0], [1.0, 1.0]], (t: string) => None);
      r.Some? && |r.value| == 1 && r.value[0].title == "B"
  {
    var catalog := [Movie("A", "", "", "neutral", 50), Movie("B", "", "", "neutral", 50)];
    assert Lower(catalog[0].originalTitle)[0] == 'a';
    assert !TitleMatches(catalog[0], "b");
    assert TitleMatches(catalog[1], "b");
    assert FindTitle(catalog, "b") == Some(1);
    QueryIncludedAfterEarlierTie([1.0, 1.0], 1, 0);
  }

  /** The catalog titles in row order. */
  function Titles(catalog: seq<Movie>): (ts: seq<string>)
    ensures |ts| == |catalog|
    ensures forall i :: 0 <= i < |catalog| ==> ts[i] == catalog[i].originalTitle
  {
    seq(|catalog|, i requires 0 <= i < |catalog| => catalog[i].originalTitle)
  }

  /** `sub` occurs in `s` starting at position `i`. */
  predicate OccursAt(s: string, sub: string, i: nat)
  {
    i + |sub| <= |s| && s[i..i + |sub|] == sub
  }

  /** `sub` occurs as a contiguous piece of `s`. */
  predicate Contains(s: string, sub: string)
  {
    exists i: nat :: i <= |s| && OccursAt(s, sub, i)
  }

  /** The suggestion test of src/app.py line 109: the lowered query occurs
      in the lowered title, the query read as a plain substring. */
  predicate Suggests(query: string, title: string): (b: bool)
    ensures b <==> exists i: nat :: i <= |title| && MatchesAt(title, query, i)
  {
    OccursAtIffMatchesAt(title, query);
    Contains(Lower(title), Lower(query))
  }

  /** The query matches the title at position `i`, character by character
      and up to case. */
  predicate MatchesAt(title: string, query: string, i: nat)
  {
    i + |query| <= |title| && forall k :: 0 <= k < |query| ==> ToLower(title[i + k]) == ToLower(query[k])
  }

  lemma OccursAtIffMatchesAt(title: string, query: string)
    ensures forall i: nat :: OccursAt(Lower(title), Lower(query), i) <==> MatchesAt(title, query, i)
  {
    forall i: nat
      ensures OccursAt(Lower(title), Lower(query), i) <==> MatchesAt(title, query, i)
    {
      if i + |query| <= |title| {
        var piece := Lower(title)[i..i + |query|];
        assert forall k :: 0 <= k < |query| ==> piece[k] == ToLower(title[i + k]);
        assert forall k :: 0 <= k < |query| ==> Lower(query)[k] == ToLower(query[k]);
      }
    }
  }

  /** The `/search-suggestions` lookup: at most ten titles in catalog order,
      each containing the query up to case; fewer than ten only when every
      matching title is already listed. */
  function SearchSuggestions(catalog: seq<Movie>, query: string): (r: seq<string>)
    ensures |r| <= MaxResults
    ensures forall k :: 0 <= k < |r| ==> Suggests(query, r[k])
    ensures IsSubseq(r, Titles(catalog))
    ensures |r| < MaxResults ==>
      forall i :: 0 <= i < |catalog| && Suggests(query, catalog[i].originalTitle)
        ==> catalog[i].originalTitle in r
    ensures var matches := Filter(Titles(catalog), (t: string) => Suggests(query, t));
      |r| == Min(MaxResults, |matches|) && r == matches[..|r|]
  {
    var titles := Titles(catalog);
    var p := (t: string) => Suggests(query, t);
    FilterHead(titles, p, MaxResults);
    Filter(titles, p)[..Min(MaxResults, |Filter(titles, p)|)]
  }

  /** An empty query matches every title: the suggestions are the first ten
      titles of the catalog. */
  lemma EmptyQuerySuggestsFirstTitles(catalog: seq<Movie>)
    ensures SearchSuggestions(catalog, "") == Titles(catalog)[..Min(MaxResults, |catalog|)]
  {
    var titles := Titles(catalog);
    forall i | 0 <= i < |titles|
      ensures Suggests("", titles[i])
    {
      assert OccursAt(Lower(titles[i]), Lower(""), 0);
    }
    FilterAllKept(titles, (t: string) => Suggests("", t));
  }

  /** Repeated titles are all suggested: two movies titled "a" both come
      back for the query "a". */
  lemma SuggestionsKeepRepeatedTitles()
    ensures SearchSuggestions([Movie("a", "", "", "neutral", 50), Movie("a", "", "", "neutral", 50)], "a") == ["a", "a"]
  {
    var catalog := [Movie("a", "", "", "neutral", 50), Movie("a", "", "", "neutral", 50)];
    assert OccursAt(Lower("a"), Lower("a"), 0);
    assert Suggests("a", "a");
    assert Titles(catalog) == ["a", "a"];
    FilterAllKept(Titles(catalog), (t: string) => Suggests("a", t));
  }
}

=== FILE: base.dfy ===
/** Shared vocabulary: an optional value, order-preserving filtering and
    subsequences, and joining strings with a separator. */
module Base {

  /** Python's `None` versus a present value. */
  datatype Option<+T> = None | Some(value: T)

  function Min(a: int, b: int): (m: int)
    ensures m <= a && m <= b
    ensures m == a || m == b
  {
    if a <= b then a else b
  }

  /** `xs` can be obtained from `ys` by deleting elements (greedy check,
      which is complete for subsequences). */
  predicate IsSubseq<T(==)>(xs: seq<T>, ys: seq<T>)
    decreases |ys|
  {
    if xs == [] then true
    else if ys == [] then false
    else if xs[0] == ys[0] then IsSubseq(xs[1..], ys[1..])
    else IsSubseq(xs, ys[1..])
  }

  /** A subsequence never holds an element more often than its source. */
  lemma {:induction false} SubseqMultiset<T>(xs: seq<T>, ys: seq<T>)
    requires IsSubseq(xs, ys)
    ensures multiset(xs) <= multiset(ys)
    decreases |ys|
  {
    if xs == [] {
    } else if ys == [] {
    } else {
      assert ys == [ys[0]] + ys[1..];
      if xs[0] == ys[0] {
        SubseqMultiset(xs[1..], ys[1..]);
        assert xs == [xs[0]] + xs[1..];
      } else {
        SubseqMultiset(xs, ys[1..]);
      }
    }
  }

  /** The elements of `s` that satisfy `p`, in their original order: a list
      comprehension `[x for x in s if p(x)]`. */
  function Filter<T(==,!new)>(s: seq<T>, p: T -> bool): (r: seq<T>)
    ensures forall i :: 0 <= i < |r| ==> p(r[i])
    ensures IsSubseq(r, s)
    ensures forall x :: p(x) ==> multiset(r)[x] == multiset(s)[x]
    ensures |r| <= |s|
  {
    if s == [] then []
    else
      assert s == [s[0]] + s[1..];
      var rest := Filter(s[1..], p);
      if p(s[0]) then
        assert ([s[0]] + rest)[1..] == rest;
        [s[0]] + rest
      else
        rest
  }

  /** Every element kept by a filter occurs in the filtered sequence. */
  lemma FilterMember<T(!new)>(s: seq<T>, p: T -> bool, x: T)
    requires x in Filter(s, p)
    ensures x in s && p(x)
  {
    var r := Filter(s, p);
    var i :| 0 <= i < |r| && r[i] == x;
    assert p(x);
    assert multiset(r)[x] > 0;
  }

  /** Every element of `s` that passes is kept. */
  lemma FilterKeeps<T(!new)>(s: seq<T>, p: T -> bool, x: T)
    requires x in s && p(x)
    ensures x in Filter(s, p)
  {
    assert multiset(s)[x] > 0;
  }

  /** Filtering a sequence whose elements all pass leaves it unchanged. */
  lemma {:induction false} FilterAllKept<T(!new)>(s: seq<T>, p: T -> bool)
    requires forall i :: 0 <= i < |s| ==> p(s[i])
    ensures Filter(s, p) == s
    decreases |s|
  {
    if s != [] {
      FilterAllKept(s[1..], p);
      assert s == [s[0]] + s[1..];
    }
  }

  /** The contract of `Filter` pins down its result: any subsequence of `s`
      that holds only `p`-elements and keeps every `p`-element as often as
      `s` does IS the filter. */
  lemma {:induction false} FilterUnique<T(!new)>(s: seq<T>, p: T -> bool, xs: seq<T>)
    requires IsSubseq(xs, s)
    requires forall i :: 0 <= i < |xs| ==> p(xs[i])
    requires forall x :: p(x) ==> multiset(xs)[x] == multiset(s)[x]
    ensures xs == Filter(s, p)
    decreases |s|
  {
    if s == [] {
    } else {
      var h := s[0];
      var t := s[1..];
      assert s == [h] + t;
      if p(h) {
        assert multiset(xs)[h] == multiset(s)[h] > 0;
        assert xs != [];
        assert xs == [xs[0]] + xs[1..];
        if xs[0] == h {
          forall x | p(x)
            ensures multiset(xs[1..])[x] == multiset(t)[x]
          {
          }
          FilterUnique(t, p, xs[1..]);
        } else {
          SubseqMultiset(xs, t);
          assert false;
        }
      } else {
        assert xs == [] || xs[0] != h;
        assert IsSubseq(xs, t);
        forall x | p(x)
          ensures multiset(xs)[x] == multiset(t)[x]
        {
          assert x != h;
        }
        FilterUnique(t, p, xs);
      }
    }
  }

  /** The summed lengths of some strings. */
  function TotalLength(ws: seq<string>): nat
  {
    if ws == [] then 0 else |ws[0]| + TotalLength(ws[1..])
  }

  /** `sep.join(ws)`: the strings in order with `sep` between neighbours,
      so it starts with the first string and has one separator fewer than
      there are strings. */
  function JoinWith(sep: string, ws: seq<string>): (r: string)
    ensures |ws| == 0 ==> r == ""
    ensures |ws| > 0 ==> |r| == TotalLength(ws) + |sep| * (|ws| - 1)
    ensures |ws| > 0 ==> |ws[0]| <= |r| && r[..|ws[0]|] == ws[0]
    decreases |ws|
  {
    if |ws| == 0 then ""
    else if |ws| == 1 then ws[0]
    else ws[0] + sep + JoinWith(sep, ws[1..])
  }

  /** Joining is the same from either end: appending a string appends the
      separator and that string. */
  lemma {:induction false} JoinWithSnoc(sep: string, ws: seq<string>, w: string)
    requires |ws| > 0
    ensures JoinWith(sep, ws + [w]) == JoinWith(sep, ws) + sep + w
    decreases |ws|
  {
    var xs := ws + [w];
    assert xs[0] == ws[0];
    if |ws| == 1 {
      assert xs[1..] == [w];
    } else {
      assert xs[1..] == ws[1..] + [w];
      JoinWithSnoc(sep, ws[1..], w);
    }
  }

  lemma {:induction false} SubseqPrefix<T>(xs: seq<T>, ys: seq<T>, n: nat)
    requires IsSubseq(xs, ys) && n <= |xs|
    ensures IsSubseq(xs[..n], ys)
    decreases |ys|
  {
    if n > 0 {
      if xs[0] == ys[0] {
        SubseqPrefix(xs[1..], ys[1..], n - 1);
        assert xs[..n][1..] == xs[1..][..n - 1];
      } else {
        SubseqPrefix(xs, ys[1..], n);
      }
    }
  }

  /** The first `n` elements passing `p` (`head(n)` of a filter): at most
      `n` of them, all passing, in their order in `s`, and fewer than `n`
      only when every passing element of `s` is among them. */
  lemma FilterHead<T(!new)>(s: seq<T>, p: T -> bool, n: nat)
    ensures var h := Filter(s, p)[..Min(n, |Filter(s, p)|)];
      && |h| <= n
      && (forall k :: 0 <= k < |h| ==> p(h[k]))
      && IsSubseq(h, s)
      && (|h| < n ==> forall i :: 0 <= i < |s| && p(s[i]) ==> s[i] in h)
  {
    var f := Filter(s, p);
    SubseqPrefix(f, s, Min(n, |f|));
    forall i | 0 <= i < |s| && p(s[i])
      ensures s[i] in f
    {
      FilterKeeps(s, p, s[i]);
    }
  }

  /** The elements of a sequence, as a set. */
  function Elems<T>(xs: seq<T>): set<T>
  {
    set x | x in xs
  }

  /** A prefix of length `p` of a sequence without repeats has `p` distinct
      elements. */
  lemma {:induction false} DistinctPrefixSize<T>(xs: seq<T>, p: nat)
    requires forall a, b :: 0 <= a < b < |xs| ==> xs[a] != xs[b]
    requires p <= |xs|
    ensures |Elems(xs[..p])| == p
    decreases p
  {
    if p == 0 {
      assert Elems(xs[..0]) == {};
    } else {
      DistinctPrefixSize(xs, p - 1);
      assert xs[..p] == xs[..p - 1] + [xs[p - 1]];
      assert Elems(xs[..p]) == Elems(xs[..p - 1]) + {xs[p - 1]};
      assert xs[p - 1] !in xs[..p - 1];
    }
  }
}

=== FILE: chars.dfy ===
/** Character classes and case mapping as the Python code sees them, and the
    decimal rendering Python's `str()` / f-strings give an integer. Case
    mapping is ASCII-only (see README). */
module Chars {

  predicate IsUpper(c: char) { 'A' <= c <= 'Z' }

  predicate IsLower(c: char) { 'a' <= c <= 'z' }

  /** The class `[a-zA-Z]`. */
  predicate IsAsciiLetter(c: char) { IsUpper(c) || IsLower(c) }

  /** Python's whitespace (`str.isspace()`, `\s` in a `str` regex, the
      separators of `str.split()`): the ASCII controls TAB..CR and FS..US,
      the space, NEL, NO-BREAK SPACE and the Unicode space separators. */
  predicate IsSpace(c: char)
  {
    var k := c as int;
    || 0x09 <= k <= 0x0D
    || 0x1C <= k <= 0x20
    || k == 0x85 || k == 0xA0 || k == 0x1680
    || 0x2000 <= k <= 0x200A
    || k == 0x2028 || k == 0x2029 || k == 0x202F || k == 0x205F || k == 0x3000
  }

  function ToLower(c: char): (d: char)
    ensures !IsUpper(d)
    ensures IsUpper(c) ==> IsLower(d) && d as int == c as int + 32
    ensures !IsUpper(c) ==> d == c
  {
    if IsUpper(c) then (c as int + 32) as char else c
  }

  function ToUpper(c: char): (d: char)
    ensures !IsLower(d)
    ensures IsLower(c) ==> IsUpper(d) && d as int + 32 == c as int
    ensures !IsLower(c) ==> d == c
  {
    if IsLower(c) then (c as int - 32) as char else c
  }

  /** `s.lower()` restricted to ASCII case folding. */
  function Lower(s: string): (r: string)
    ensures |r| == |s|
    ensures forall i :: 0 <= i < |r| ==> !IsUpper(r[i])
    ensures forall i :: 0 <= i < |s| ==> r[i] == ToLower(s[i])
    ensures forall i :: 0 <= i < |s| && IsUpper(s[i]) ==> IsLower(r[i])
    ensures forall i :: 0 <= i < |s| && !IsUpper(s[i]) ==> r[i] == s[i]
  {
    seq(|s|, i requires 0 <= i < |s| => ToLower(s[i]))
  }

  /** `s.upper()` restricted to ASCII case folding. */
  function Upper(s: string): (r: string)
    ensures |r| == |s|
    ensures forall i :: 0 <= i < |r| ==> !IsLower(r[i])
    ensures forall i :: 0 <= i < |s| ==> r[i] == ToUpper(s[i])
  {
    seq(|s|, i requires 0 <= i < |s| => ToUpper(s[i]))
  }

  /** Lowering twice is lowering once, and text without capitals is already
      lowered. */
  lemma LowerIdempotent(s: string)
    ensures Lower(Lower(s)) == Lower(s)
    ensures (forall i :: 0 <= i < |s| ==> !IsUpper(s[i])) ==> Lower(s) == s
  {
  }

  /** `s.capitalize()` on ASCII text: the first character upper-cased, every
      other character lower-cased. */
  function Capitalize(s: string): (r: string)
    ensures |r| == |s|
    ensures |r| > 0 ==> !IsLower(r[0])
    ensures forall i :: 0 < i < |r| ==> !IsUpper(r[i])
    ensures Lower(r) == Lower(s)
  {
    if s == [] then [] else [ToUpper(s[0])] + Lower(s[1..])
  }

  predicate IsDigit(c: char) { '0' <= c <= '9' }

  function DigitChar(d: nat): (c: char)
    requires d < 10
    ensures IsDigit(c)
  {
    ('0' as int + d) as char
  }

  function DigitValue(c: char): (d: nat)
    requires IsDigit(c)
    ensures d < 10 && DigitChar(d) == c
  {
    c as int - '0' as int
  }

  /** Reads a string of decimal digits, most significant first. */
  function ParseDigits(s: string): nat
    requires forall i :: 0 <= i < |s| ==> IsDigit(s[i])
    decreases |s|
  {
    if s == [] then 0
    else ParseDigits(s[..|s| - 1]) * 10 + DigitValue(s[|s| - 1])
  }

  /** `str(n)` for a natural number: canonical decimal digits that read back
      as `n`. */
  function NatToString(n: nat): (s: string)
    ensures |s| > 0
    ensures forall i :: 0 <= i < |s| ==> IsDigit(s[i])
    ensures s[0] == '0' ==> s == "0"
    ensures ParseDigits(s) == n
    decreases n
  {
    if n < 10 then [DigitChar(n)]
    else
      var high := NatToString(n / 10);
      var s := high + [DigitChar(n % 10)];
      assert s[..|s| - 1] == high;
      s
  }

  /** `str(i)` for an integer: a minus sign before the digits of `-i` when
      negative. */
  function IntToString(i: int): (s: string)
    ensures |s| > 0
    ensures i < 0 <==> s[0] == '-'
    ensures i >= 0 ==> (forall k :: 0 <= k < |s| ==> IsDigit(s[k])) && ParseDigits(s) == i
    ensures i < 0 ==> (forall k :: 1 <= k < |s| ==> IsDigit(s[k])) && ParseDigits(s[1..]) == -i
    ensures i >= 0 ==> (s[0] == '0' ==> s == "0")
    ensures i < 0 ==> |s| > 1 && s[1] != '0'
  {
    if i < 0 then
      var s := "-" + NatToString(-i);
      assert s[1..] == NatToString(-i);
      s
    else NatToString(i)
  }
}

=== FILE: preprocessing.dfy ===
/** The text cleaner of src/preprocessing.py: lowercase, delete everything
    outside `[a-zA-Z\s]`, split into words, drop stopwords, rejoin with single
    spaces; and the `content` column built from five cleaned columns. The
    tokenizer is modelled as whitespace splitting (`str.split()`), and the
    stopword list is a parameter. */
module Preprocessing {
  import opened Base
  import opened Chars

  /** Characters the pattern `[^a-zA-Z\s]` does NOT match, i.e. the ones the
      substitution leaves in place. */
  predicate KeptChar(c: char) { IsAsciiLetter(c) || IsSpace(c) }

  /** The regex substitution of src/preprocessing.py line 26, which deletes
      every character that is neither an ASCII letter nor whitespace: the
      result is exactly the letters and whitespace of `s`, each as often as
      in `s`, in their original order. */
  function StripNonLetters(s: string): (r: string)
    ensures forall i :: 0 <= i < |r| ==> KeptChar(r[i])
    ensures IsSubseq(r, s)
    ensures forall c :: KeptChar(c) ==> multiset(r)[c] == multiset(s)[c]
  {
    Filter(s, KeptChar)
  }

  /** A token of `str.split()`: non-empty, no whitespace inside. */
  predicate IsWord(w: string)
  {
    |w| > 0 && forall i :: 0 <= i < |w| ==> !IsSpace(w[i])
  }

  /** Length of the leading run of non-whitespace characters. */
  function WordLength(s: string): (n: nat)
    ensures n <= |s|
    ensures forall i :: 0 <= i < n ==> !IsSpace(s[i])
    ensures n < |s| ==> IsSpace(s[n])
    decreases |s|
  {
    if s == [] || IsSpace(s[0]) then 0 else 1 + WordLength(s[1..])
  }

  /** `s.split()`: the maximal runs of non-whitespace characters, in order. */
  function Tokens(s: string): (ws: seq<string>)
    ensures forall k :: 0 <= k < |ws| ==> IsWord(ws[k])
    ensures forall k, i :: 0 <= k < |ws| && 0 <= i < |ws[k]| ==> ws[k][i] in s
    decreases |s|
  {
    if s == [] then []
    else if IsSpace(s[0]) then Tokens(s[1..])
    else
      var n := WordLength(s);
      assert forall i :: 0 <= i < n ==> s[..n][i] in s;
      assert forall x :: x in s[n..] ==> x in s;
      [s[..n]] + Tokens(s[n..])
  }

  /** Words joined with one space between neighbours. */
  function Join(ws: seq<string>): string
  {
    JoinWith(" ", ws)
  }

  /** Words separated by exactly one plain space, with no whitespace at
      either end. */
  predicate SingleSpaced(s: string)
  {
    forall i :: 0 <= i < |s| && IsSpace(s[i]) ==>
      s[i] == ' ' && 0 < i < |s| - 1 && !IsSpace(s[i + 1])
  }

  lemma {:induction false} WordLengthBeforeSpace(a: string, t: string)
    requires |t| > 0 && IsSpace(t[0])
    ensures WordLength(a + t) == WordLength(a)
    decreases |a|
  {
    if a == [] {
      assert a + t == t;
    } else if IsSpace(a[0]) {
      assert (a + t)[0] == a[0];
    } else {
      assert (a + t)[1..] == a[1..] + t;
      WordLengthBeforeSpace(a[1..], t);
    }
  }

  /** A whitespace character separates tokens: splitting `a c b` splits `a`
      and `b` independently. */
  lemma {:induction false} TokensAroundSpace(a: string, c: char, b: string)
    requires IsSpace(c)
    ensures Tokens(a + [c] + b) == Tokens(a) + Tokens(b)
    decreases |a|
  {
    var s := a + [c] + b;
    if a == [] {
      assert s == [c] + b;
      assert s[1..] == b;
    } else if IsSpace(a[0]) {
      assert s[0] == a[0];
      assert s[1..] == a[1..] + [c] + b;
      TokensAroundSpace(a[1..], c, b);
    } else {
      assert s == a + ([c] + b);
      WordLengthBeforeSpace(a, [c] + b);
      var n := WordLength(a);
      assert s[0] == a[0];
      assert s[..n] == a[..n];
      assert s[n..] == a[n..] + [c] + b;
      TokensAroundSpace(a[n..], c, b);
    }
  }

  /** Text splits into no tokens exactly when it is all whitespace. */
  lemma {:induction false} TokensEmptyIffBlank(s: string)
    ensures Tokens(s) == [] <==> forall i :: 0 <= i < |s| ==> IsSpace(s[i])
    decreases |s|
  {
    if s != [] && IsSpace(s[0]) {
      TokensEmptyIffBlank(s[1..]);
      assert forall i :: 1 <= i < |s| ==> s[i] == s[1..][i - 1];
    }
  }

  lemma TokensOfWord(w: string)
    requires IsWord(w)
    ensures Tokens(w) == [w]
  {
    assert WordLength(w) == |w|;
    assert w[..|w|] == w;
    assert w[|w|..] == [];
  }

  /** Round trip: splitting the space-join of words gives the words back. */
  lemma {:induction false} TokensOfJoin(ws: seq<string>)
    requires forall k :: 0 <= k < |ws| ==> IsWord(ws[k])
    ensures Tokens(Join(ws)) == ws
    decreases |ws|
  {
    if |ws| == 0 {
    } else if |ws| == 1 {
      TokensOfWord(ws[0]);
    } else {
      TokensAroundSpace(ws[0], ' ', Join(ws[1..]));
      TokensOfWord(ws[0]);
      TokensOfJoin(ws[1..]);
      assert ws == [ws[0]] + ws[1..];
    }
  }

  /** The space-join of words is single-spaced, and non-empty with word
      characters at both ends when there is at least one word. */
  lemma {:induction false} JoinSingleSpaced(ws: seq<string>)
    requires forall k :: 0 <= k < |ws| ==> IsWord(ws[k])
    ensures SingleSpaced(Join(ws))
    ensures |ws| > 0 ==> |Join(ws)| > 0 && !IsSpace(Join(ws)[0]) && !IsSpace(Join(ws)[|Join(ws)| - 1])
    ensures |ws| == 0 ==> Join(ws) == ""
    decreases |ws|
  {
    if |ws| > 1 {
      var w := ws[0];
      var j := Join(ws[1..]);
      JoinSingleSpaced(ws[1..]);
      var s := Join(ws);
      assert s == w + " " + j;
      forall i | 0 <= i < |s|
        ensures IsSpace(s[i]) ==> s[i] == ' ' && 0 < i < |s| - 1 && !IsSpace(s[i + 1])
      {
        if i < |w| {
          assert s[i] == w[i];
        } else if i == |w| {
          assert s[i + 1] == j[0];
        } else {
          assert s[i] == j[i - |w| - 1];
          if i + 1 < |s| {
            assert s[i + 1] == j[i - |w|];
          }
        }
      }
      assert s[0] == w[0];
      assert s[|s| - 1] == j[|j| - 1];
    }
  }

  /** After the first word and its one separating space, single-spaced text
      continues with a single-spaced, non-empty rest starting with a word. */
  lemma SingleSpacedRest(s: string)
    requires SingleSpaced(s) && WordLength(s) < |s|
    ensures WordLength(s) + 1 < |s|
    ensures s[WordLength(s)] == ' ' && !IsSpace(s[WordLength(s) + 1])
    ensures SingleSpaced(s[WordLength(s) + 1..])
  {
    var n := WordLength(s);
    var rest := s[n + 1..];
    forall i | 0 <= i < |rest| && IsSpace(rest[i])
      ensures rest[i] == ' ' && 0 < i < |rest| - 1 && !IsSpace(rest[i + 1])
    {
      assert rest[i] == s[n + 1 + i];
    }
  }

  lemma JoinCons(w: string, ws: seq<string>)
    requires |ws| > 0
    ensures Join([w] + ws) == w + " " + Join(ws)
  {
    assert ([w] + ws)[1..] == ws;
  }

  /** Splitting text that starts with a word `w` followed by a space gives
      `w` and then the tokens of what follows the space. */
  lemma TokensAfterFirstWord(s: string)
    requires |s| > 0 && !IsSpace(s[0]) && WordLength(s) < |s|
    ensures Tokens(s) == [s[..WordLength(s)]] + Tokens(s[WordLength(s) + 1..])
  {
    var n := WordLength(s);
    var tail := s[n..];
    assert Tokens(s) == [s[..n]] + Tokens(tail);
    assert tail[0] == s[n];
    assert tail[1..] == s[n + 1..];
    assert Tokens(tail) == Tokens(tail[1..]);
  }

  /** Text starting with a non-whitespace character has a first token. */
  lemma TokensStartWithWord(s: string)
    requires |s| > 0 && !IsSpace(s[0])
    ensures Tokens(s) != []
  {
  }

  /** Cutting a string around one space. */
  lemma SplitAround(s: string, n: nat)
    requires n < |s| && s[n] == ' '
    ensures s == s[..n] + " " + s[n + 1..]
  {
  }

  /** One step of `CanonicalOfSingleSpaced`: the first word, one space,
      and a rest that is already canonical. */
  lemma CanonicalStep(s: string)
    requires |s| > 0 && !IsSpace(s[0]) && WordLength(s) + 1 < |s|
    requires s[WordLength(s)] == ' ' && !IsSpace(s[WordLength(s) + 1])
    requires Join(Tokens(s[WordLength(s) + 1..])) == s[WordLength(s) + 1..]
    ensures Join(Tokens(s)) == s
  {
    var n := WordLength(s);
    TokensAfterFirstWord(s);
    TokensStartWithWord(s[n + 1..]);
    JoinCons(s[..n], Tokens(s[n + 1..]));
    SplitAround(s, n);
  }

  /** Single-spaced text is its own `' '.join(s.split())`. */
  lemma {:induction false} CanonicalOfSingleSpaced(s: string)
    requires SingleSpaced(s)
    ensures Join(Tokens(s)) == s
    decreases |s|
  {
    if s != [] {
      assert !IsSpace(s[0]);
      if WordLength(s) == |s| {
        TokensOfWord(s);
      } else {
        SingleSpacedRest(s);
        CanonicalOfSingleSpaced(s[WordLength(s) + 1..]);
        CanonicalStep(s);
      }
    }
  }

  /** Text is in the joined-words form exactly when it is single-spaced:
      `' '.join(s.split()) == s` if and only if `SingleSpaced(s)`. */
  lemma SingleSpacedIffCanonical(s: string)
    ensures SingleSpaced(s) <==> Join(Tokens(s)) == s
  {
    if Join(Tokens(s)) == s {
      JoinSingleSpaced(Tokens(s));
    }
    if SingleSpaced(s) {
      CanonicalOfSingleSpaced(s);
    }
  }

  /** The stopword filter of src/preprocessing.py line 30: the words not in
      `stop`, in their original order. */
  function RemoveStopwords(ws: seq<string>, stop: set<string>): (r: seq<string>)
    ensures FreeOfStopwords(r, stop)
    ensures IsSubseq(r, ws)
    ensures forall w :: w !in stop ==> multiset(r)[w] == multiset(ws)[w]
  {
    Filter(ws, (w: string) => w !in stop)
  }

  /** The word list `clean_text` joins: the tokens of the lowered, stripped
      text that are not stopwords. */
  function CleanTokens(text: string, stop: set<string>): seq<string>
  {
    RemoveStopwords(Tokens(StripNonLetters(Lower(text))), stop)
  }

  /** A word made only of lowercase ASCII letters. */
  predicate IsCleanWord(w: string)
  {
    |w| > 0 && forall i :: 0 <= i < |w| ==> IsLower(w[i])
  }

  /** Every word `clean_text` keeps consists of lowercase ASCII letters. */
  lemma CleanTokensAreClean(text: string, stop: set<string>)
    ensures forall k :: 0 <= k < |CleanTokens(text, stop)| ==> IsCleanWord(CleanTokens(text, stop)[k])
  {
    var low := Lower(text);
    var kept := StripNonLetters(low);
    var toks := Tokens(kept);
    var ws := CleanTokens(text, stop);
    SubseqMultiset(kept, low);
    forall x | x in kept
      ensures KeptChar(x) && !IsUpper(x)
    {
      assert multiset(kept)[x] > 0;
    }
    forall k | 0 <= k < |ws|
      ensures IsCleanWord(ws[k])
    {
      FilterMember(toks, (w: string) => w !in stop, ws[k]);
      var j :| 0 <= j < |toks| && toks[j] == ws[k];
      forall i | 0 <= i < |ws[k]|
        ensures IsLower(ws[k][i])
      {
        assert toks[j][i] in kept;
      }
    }
  }

  /** Text made of lowercase ASCII letters and plain spaces only. */
  predicate LowerOrSpace(s: string)
  {
    forall i :: 0 <= i < |s| ==> IsLower(s[i]) || s[i] == ' '
  }

  lemma LowerOrSpaceAround(a: string, b: string)
    requires LowerOrSpace(a) && LowerOrSpace(b)
    ensures LowerOrSpace(a + " " + b)
  {
    var s := a + " " + b;
    forall i | 0 <= i < |s|
      ensures IsLower(s[i]) || s[i] == ' '
    {
      if i < |a| {
        assert s[i] == a[i];
      } else if i > |a| {
        assert s[i] == b[i - |a| - 1];
      }
    }
  }

  /** Joining lowercase words gives lowercase letters and spaces only. */
  lemma {:induction false} JoinCleanWords(ws: seq<string>)
    requires forall k :: 0 <= k < |ws| ==> IsCleanWord(ws[k])
    ensures LowerOrSpace(Join(ws))
    decreases |ws|
  {
    if |ws| > 1 {
      JoinCleanWords(ws[1..]);
      LowerOrSpaceAround(ws[0], Join(ws[1..]));
    }
  }

  /** `clean_text(text)`: every character is a lowercase ASCII letter or a
      space, words are separated by exactly one space, and the words are the
      tokens of the lowered, stripped text with the stopwords removed. */
  function CleanText(text: string, stop: set<string>): (r: string)
    ensures LowerOrSpace(r)
    ensures SingleSpaced(r)
    ensures Tokens(r) == RemoveStopwords(Tokens(StripNonLetters(Lower(text))), stop)
    ensures FreeOfStopwords(Tokens(r), stop)
  {
    var ws := CleanTokens(text, stop);
    CleanTokensAreClean(text, stop);
    JoinCleanWords(ws);
    JoinSingleSpaced(ws);
    TokensOfJoin(ws);
    Join(ws)
  }

  /** Empty input, and input whose every word is a stopword, clean to the
      empty string. */
  lemma CleanTextEmpty(text: string, stop: set<string>)
    requires forall k :: 0 <= k < |Tokens(StripNonLetters(Lower(text)))| ==>
               Tokens(StripNonLetters(Lower(text)))[k] in stop
    ensures CleanText(text, stop) == ""
  {
    var toks := Tokens(StripNonLetters(Lower(text)));
    forall x | x !in stop
      ensures multiset(toks)[x] == 0
    {
      assert x !in toks;
    }
    FilterUnique(toks, (w: string) => w !in stop, []);
  }

  /** Cleaning is idempotent: cleaned text cleans to itself. */
  lemma CleanTextIdempotent(text: string, stop: set<string>)
    ensures CleanText(CleanText(text, stop), stop) == CleanText(text, stop)
  {
    var y := CleanText(text, stop);
    var ws := CleanTokens(text, stop);
    assert y == Join(ws);
    LowerIdempotent(y);
    assert Lower(y) == y;
    FilterAllKept(y, KeptChar);
    assert StripNonLetters(y) == y;
    assert Tokens(y) == ws;
    FilterAllKept(ws, (w: string) => w !in stop);
    assert CleanTokens(y, stop) == ws;
  }

  /** The `content` column: the five columns joined by single spaces, in the
      order overview, genres, cast, keywords, director. Its words are the
      five columns' words, concatenated in that order. */
  function Content(overview: string, genres: string, cast: string, keywords: string, director: string): (c: string)
    ensures |c| == |overview| + |genres| + |cast| + |keywords| + |director| + 4
    ensures Tokens(c) == Tokens(overview) + Tokens(genres) + Tokens(cast) + Tokens(keywords) + Tokens(director)
    ensures c == Join([overview, genres, cast, keywords, director])
  {
    var a := overview + " " + genres;
    var b := a + " " + cast;
    var d := b + " " + keywords;
    TokensAroundSpace(overview, ' ', genres);
    TokensAroundSpace(a, ' ', cast);
    TokensAroundSpace(b, ' ', keywords);
    TokensAroundSpace(d, ' ', director);
    assert Join([overview]) == overview;
    JoinWithSnoc(" ", [overview], genres);
    assert [overview] + [genres] == [overview, genres];
    JoinWithSnoc(" ", [overview, genres], cast);
    assert [overview, genres] + [cast] == [overview, genres, cast];
    JoinWithSnoc(" ", [overview, genres, cast], keywords);
    assert [overview, genres, cast] + [keywords] == [overview, genres, cast, keywords];
    JoinWithSnoc(" ", [overview, genres, cast, keywords], director);
    assert [overview, genres, cast, keywords] + [director] == [overview, genres, cast, keywords, director];
    d + " " + director
  }

  /** A column that cleans to "" still contributes its separator: with an
      empty overview the content starts with a space, so it is not
      single-spaced. */
  lemma EmptyOverviewBreaksSpacing(genres: string, cast: string, keywords: string, director: string)
    ensures Content("", genres, cast, keywords, director)[0] == ' '
    ensures !SingleSpaced(Content("", genres, cast, keywords, director))
  {
    var c := Content("", genres, cast, keywords, director);
    assert c == "" + " " + genres + " " + cast + " " + keywords + " " + director;
    assert c[0] == ' ';
    assert IsSpace(c[0]);
  }

  predicate FreeOfStopwords(ws: seq<string>, stop: set<string>)
  {
    forall k :: 0 <= k < |ws| ==> ws[k] !in stop
  }

  lemma FreeOfStopwordsConcat(a: seq<string>, b: seq<string>, stop: set<string>)
    requires FreeOfStopwords(a, stop) && FreeOfStopwords(b, stop)
    ensures FreeOfStopwords(a + b, stop)
  {
    forall k | 0 <= k < |a + b|
      ensures (a + b)[k] !in stop
    {
      if k >= |a| {
        assert (a + b)[k] == b[k - |a|];
      }
    }
  }

  /** A movie row as read from the scraped CSV (after `astype(str)`). */
  datatype RawMovie = RawMovie(
    reviews: string, overview: string, genres: string,
    cast: string, keywords: string, director: string)

  /** A movie row after cleaning, with its derived `content` column. */
  datatype CleanMovie = CleanMovie(
    reviews: string, overview: string, genres: string,
    cast: string, keywords: string, director: string, content: string)

  /** The per-row effect of the cleaning loop and the `content` assignment:
      every column cleaned, and the content made of the cleaned columns'
      words in order — lowercase letters and spaces only, and free of
      stopwords. */
  function Preprocess(m: RawMovie, stop: set<string>): (c: CleanMovie)
    ensures c.reviews == CleanText(m.reviews, stop) && c.overview == CleanText(m.overview, stop)
    ensures c.genres == CleanText(m.genres, stop) && c.cast == CleanText(m.cast, stop)
    ensures c.keywords == CleanText(m.keywords, stop) && c.director == CleanText(m.director, stop)
    ensures Tokens(c.content) ==
      CleanTokens(m.overview, stop) + CleanTokens(m.genres, stop) + CleanTokens(m.cast, stop)
      + CleanTokens(m.keywords, stop) + CleanTokens(m.director, stop)
    ensures c.content == Content(c.overview, c.genres, c.cast, c.keywords, c.director)
    ensures LowerOrSpace(c.content)
    ensures FreeOfStopwords(Tokens(c.content), stop)
  {
    var o := CleanText(m.overview, stop);
    var g := CleanText(m.genres, stop);
    var ca := CleanText(m.cast, stop);
    var k := CleanText(m.keywords, stop);
    var d := CleanText(m.director, stop);
    var content := Content(o, g, ca, k, d);
    assert Tokens(content) == Tokens(o) + Tokens(g) + Tokens(ca) + Tokens(k) + Tokens(d);
    assert Tokens(o) == CleanTokens(m.overview, stop);
    assert Tokens(g) == CleanTokens(m.genres, stop);
    assert Tokens(ca) == CleanTokens(m.cast, stop);
    assert Tokens(k) == CleanTokens(m.keywords, stop);
    assert Tokens(d) == CleanTokens(m.director, stop);
    FreeOfStopwordsConcat(Tokens(o), Tokens(g), stop);
    FreeOfStopwordsConcat(Tokens(o) + Tokens(g), Tokens(ca), stop);
    FreeOfStopwordsConcat(Tokens(o) + Tokens(g) + Tokens(ca), Tokens(k), stop);
    FreeOfStopwordsConcat(Tokens(o) + Tokens(g) + Tokens(ca) + Tokens(k), Tokens(d), stop);
    assert content == o + " " + g + " " + ca + " " + k + " " + d;
    LowerOrSpaceAround(o, g);
    LowerOrSpaceAround(o + " " + g, ca);
    LowerOrSpaceAround(o + " " + g + " " + ca, k);
    LowerOrSpaceAround(o + " " + g + " " + ca + " " + k, d);
    CleanMovie(CleanText(m.reviews, stop), o, g, ca, k, d, content)
  }
}

=== FILE: ranking.dfy ===
/** The ranking step of `get_recommendations` (src/app.py): the candidate rows
    of one similarity row sorted by score, highest first, with ties kept in
    ascending row order (Python's `sorted` is stable, also with
    `reverse=True`), and the slice `[1:11]` of that order. The similarity row
    is an arbitrary sequence of reals: neither symmetry of the matrix nor a
    unit diagonal is assumed. */
module Ranking {
  import opened Base

  /** Row `i` comes before row `j` in the ranked order of `row`: a strictly
      higher score, or an equal score and a lower index. */
  predicate Before(row: seq<real>, i: nat, j: nat)
    requires i < |row| && j < |row|
  {
    row[i] > row[j] || (row[i] == row[j] && i < j)
  }

  /** Valid row indices, strictly increasing in the `Before` order (so in
      particular pairwise distinct). */
  predicate Sorted(row: seq<real>, xs: seq<nat>)
  {
    && (forall p :: 0 <= p < |xs| ==> xs[p] < |row|)
    && (forall p, q :: 0 <= p < q < |xs| ==> Before(row, xs[p], xs[q]))
  }

  /** `order` lists every row index exactly once, best first. */
  predicate IsRanking(row: seq<real>, order: seq<nat>)
  {
    && |order| == |row|
    && Sorted(row, order)
    && (forall i: nat :: i < |row| ==> i in order)
  }

  /** One insertion-sort step: `j` goes in front of the first element it
      ranks before. */
  function Insert(row: seq<real>, xs: seq<nat>, j: nat): (r: seq<nat>)
    requires j < |row| && Sorted(row, xs) && j !in xs
    ensures Sorted(row, r)
    ensures |r| == |xs| + 1
    ensures forall x :: x in r <==> x in xs || x == j
    decreases |xs|
  {
    if xs == [] then [j]
    else if Before(row, j, xs[0]) then [j] + xs
    else
      var rest := Insert(row, xs[1..], j);
      var r := [xs[0]] + rest;
      assert forall q :: 1 <= q < |r| ==> r[q] in rest;
      r
  }

  /** Insertion sort of the indices `0 .. n-1`. */
  function SortPrefix(row: seq<real>, n: nat): (r: seq<nat>)
    requires n <= |row|
    ensures Sorted(row, r)
    ensures |r| == n
    ensures forall x: nat :: x in r <==> x < n
  {
    if n == 0 then [] else Insert(row, SortPrefix(row, n - 1), n - 1)
  }

  /** The row indices sorted by score, highest first, as the stable
      descending sort of src/app.py line 77 orders them. */
  function Ranked(row: seq<real>): (order: seq<nat>)
    ensures IsRanking(row, order)
  {
    SortPrefix(row, |row|)
  }

  /** Two `Before`-sorted sequences with the same elements are equal. */
  lemma {:induction false} SortedSameElements(row: seq<real>, a: seq<nat>, b: seq<nat>)
    requires Sorted(row, a) && Sorted(row, b)
    requires forall x :: x in a <==> x in b
    ensures a == b
    decreases |a|
  {
    assert a != [] ==> a[0] in b;
    assert b != [] ==> b[0] in a;
    if a != [] && b != [] {
      assert b[0] in a;
      var p :| 0 <= p < |a| && a[p] == b[0];
      assert a[0] in b;
      var q :| 0 <= q < |b| && b[q] == a[0];
      assert p != 0 ==> Before(row, a[0], a[p]);
      assert q != 0 ==> Before(row, b[0], b[q]);
      assert a[0] == b[0];
      forall x
        ensures x in a[1..] <==> x in b[1..]
      {
        if x in a[1..] {
          var p :| 1 <= p < |a| && a[p] == x;
          assert x != a[0];
          assert x in b;
          var q :| 0 <= q < |b| && b[q] == x;
          assert q != 0;
          assert b[1..][q - 1] == x;
        }
        if x in b[1..] {
          var q :| 1 <= q < |b| && b[q] == x;
          assert x != b[0];
          assert x in a;
          var p :| 0 <= p < |a| && a[p] == x;
          assert p != 0;
          assert a[1..][p - 1] == x;
        }
      }
      SortedSameElements(row, a[1..], b[1..]);
      assert a == [a[0]] + a[1..];
      assert b == [b[0]] + b[1..];
    }
  }

  /** The ranked order is unique: any order that lists every index once,
      best first with ties by ascending index, is exactly `Ranked(row)`. */
  lemma RankingUnique(row: seq<real>, order: seq<nat>)
    requires IsRanking(row, order)
    ensures order == Ranked(row)
  {
    var r := Ranked(row);
    forall x
      ensures x in order <==> x in r
    {
      if x in order {
        var p :| 0 <= p < |order| && order[p] == x;
      }
    }
    SortedSameElements(row, order, r);
  }

  /** The head of a sorted sequence ranks before every other element. */
  lemma HeadRanksFirst(row: seq<real>, xs: seq<nat>, y: nat)
    requires Sorted(row, xs) && y in xs
    ensures |xs| > 0 && xs[0] < |row| && y < |row|
    ensures xs[0] == y || Before(row, xs[0], y)
  {
    var p :| 0 <= p < |xs| && xs[p] == y;
    assert p == 0 || Before(row, xs[0], xs[p]);
  }

  /** An index that ranks before every other index heads any ranking. */
  lemma DominantLeads(row: seq<real>, order: seq<nat>, x: nat)
    requires IsRanking(row, order) && x < |row|
    requires forall y: nat :: y < |row| && y != x ==> Before(row, x, y)
    ensures |order| > 0 && order[0] == x
  {
    assert x in order;
    HeadRanksFirst(row, order, x);
    assert order[0] == x || Before(row, x, order[0]);
  }

  /** The head of the ranking is the lowest-index row among those with the
      highest score. */
  lemma LeaderIsFirstArgmax(row: seq<real>)
    requires |row| > 0
    ensures forall j :: 0 <= j < |row| ==> row[j] <= row[Ranked(row)[0]]
    ensures forall j :: 0 <= j < Ranked(row)[0] ==> row[j] < row[Ranked(row)[0]]
  {
    var order := Ranked(row);
    var lead := order[0];
    forall j | 0 <= j < |row|
      ensures row[j] <= row[lead]
      ensures j < lead ==> row[j] < row[lead]
    {
      assert j in order;
      HeadRanksFirst(row, order, j);
    }
  }

  /** `ranked[1:11]`: sorted positions 1 to 10, i.e. `min(10, N-1)` distinct
      valid indices in ranked order, the head of the ranking left out. */
  function Selected(row: seq<real>): (sel: seq<nat>)
    ensures |sel| == if |row| == 0 then 0 else Min(10, |row| - 1)
    ensures Sorted(row, sel)
    ensures forall k :: 0 <= k < |sel| ==> sel[k] == Ranked(row)[k + 1]
  {
    var ranked := Ranked(row);
    if |ranked| <= 1 then [] else ranked[1..Min(11, |ranked|)]
  }

  /** The selection is a top-10 after the head: every index that is neither
      selected nor the head ranks behind every selected index. */
  lemma SelectedOutrankTheRest(row: seq<real>, i: nat)
    requires i < |row| && i !in Selected(row) && i != Ranked(row)[0]
    ensures forall k :: 0 <= k < |Selected(row)| ==> Before(row, Selected(row)[k], i)
  {
    var order := Ranked(row);
    var sel := Selected(row);
    assert i in order;
    var p :| 0 <= p < |order| && order[p] == i;
    assert forall q :: 1 <= q <= |sel| ==> order[q] in sel by {
      forall q | 1 <= q <= |sel|
        ensures order[q] in sel
      {
        assert sel[q - 1] == order[q];
      }
    }
    assert p > |sel|;
    forall k | 0 <= k < |sel|
      ensures Before(row, sel[k], i)
    {
      assert sel[k] == order[k + 1];
    }
  }

  /** How many rows of `row` rank before row `i`: those with a strictly
      higher score, and those with an equal score and a lower index. */
  function RankOf(row: seq<real>, i: nat): nat
    requires i < |row|
  {
    |set j: nat | j < |row| && Before(row, j, i)|
  }

  /** A sorted sequence has no repeated element. */
  lemma SortedDistinct(row: seq<real>, xs: seq<nat>)
    requires Sorted(row, xs)
    ensures forall a, b :: 0 <= a < b < |xs| ==> xs[a] != xs[b]
  {
    forall a, b | 0 <= a < b < |xs|
      ensures xs[a] != xs[b]
    {
      assert Before(row, xs[a], xs[b]);
    }
  }

  /** The rank of the index at sorted position `p` is `p`: the rows ranking
      before it are exactly those sorted ahead of it. */
  lemma PositionIsRank(row: seq<real>, order: seq<nat>, p: nat)
    requires IsRanking(row, order) && p < |order|
    ensures order[p] < |row| && RankOf(row, order[p]) == p
  {
    var i := order[p];
    var before := set j: nat | j < |row| && Before(row, j, i);
    forall j: nat | j < |row|
      ensures Before(row, j, i) <==> j in order[..p]
    {
      assert j in order;
      var q :| 0 <= q < |order| && order[q] == j;
      assert q < p ==> order[..p][q] == j;
      if j in order[..p] {
        var q' :| 0 <= q' < p && order[..p][q'] == j;
        assert Before(row, order[q'], order[p]);
      }
    }
    assert before == Elems(order[..p]);
    SortedDistinct(row, order);
    DistinctPrefixSize(order, p);
  }

  /** The exact rule of the `[1:11]` slice: a row is recommended if and
      only if at least one and at most ten rows rank before it. */
  lemma SelectedIffRank(row: seq<real>, i: nat)
    requires i < |row|
    ensures i in Selected(row) <==> 1 <= RankOf(row, i) <= 10
    ensures i == Ranked(row)[0] <==> RankOf(row, i) == 0
  {
    var order := Ranked(row);
    var sel := Selected(row);
    assert i in order;
    var p :| 0 <= p < |order| && order[p] == i;
    PositionIsRank(row, order, p);
    PositionIsRank(row, order, 0);
    if i in sel {
      var k :| 0 <= k < |sel| && sel[k] == i;
      assert order[k + 1] == i;
      SortedDistinct(row, order);
      assert p == k + 1;
    }
    if 1 <= p <= 10 {
      assert sel[p - 1] == i;
    }
  }

  /** The query row `idx` is left out exactly when it heads its own ranking
      or more than ten rows rank before it; nothing else about `idx` being
      the query matters. */
  lemma QueryExcludedIff(row: seq<real>, idx: nat)
    requires idx < |row|
    ensures idx !in Selected(row) <==> idx == Ranked(row)[0] || RankOf(row, idx) > 10
  {
    SelectedIffRank(row, idx);
  }

  /** The query row is left out when its own score is strictly above every
      other score in its row. */
  lemma QueryExcludedWhenStrictMax(row: seq<real>, idx: nat)
    requires idx < |row|
    requires forall j :: 0 <= j < |row| && j != idx ==> row[j] < row[idx]
    ensures idx !in Selected(row)
  {
    var order := Ranked(row);
    DominantLeads(row, order, idx);
    var sel := Selected(row);
    forall k | 0 <= k < |sel|
      ensures sel[k] != idx
    {
      assert sel[k] == order[k + 1];
      assert Before(row, order[0], order[k + 1]);
    }
  }

  /** It is sorted position 0 that is dropped, not the query row: when an
      earlier row ties the query row's top score, that earlier row heads the
      ranking and the query row itself comes out first among the
      recommendations. */
  lemma QueryIncludedAfterEarlierTie(row: seq<real>, idx: nat, j0: nat)
    requires j0 < idx < |row|
    requires row[j0] == row[idx]
    requires forall j :: 0 <= j < |row| && j != j0 && j != idx ==> row[j] < row[idx]
    ensures |Selected(row)| > 0 && Selected(row)[0] == idx
  {
    var order := Ranked(row);
    DominantLeads(row, order, j0);
    assert idx in order;
    var p :| 0 <= p < |order| && order[p] == idx;
    assert Before(row, order[0], order[1]);
    assert order[1] == idx || Before(row, idx, order[1]);
    HeadRanksFirst(row, order[1..], idx);
    assert order[1] == idx;
  }

  /** A query row that ties a LATER row at the top heads the ranking itself
      and is left out. */
  lemma TieWithLaterRowExample()
    ensures Ranked([1.0, 1.0]) == [0, 1]
    ensures 0 !in Selected([1.0, 1.0])
  {
    RankingUnique([1.0, 1.0], [0, 1]);
  }

  /** With a three-way tie the query row 2 is recommended, but second:
      only row 0 is dropped. */
  lemma ThreeWayTieExample()
    ensures Selected([1.0, 1.0, 1.0]) == [1, 2]
  {
    RankingUnique([1.0, 1.0, 1.0], [0, 1, 2]);
  }
}

=== FILE: sentiment.dfy ===
/** The sentiment columns of src/sentiment_analysis.py: a three-way label
    from a compound polarity score, and a 0..100 percentage. The compound
    score itself comes from a lexicon model outside this project and is an
    input here. */
module Sentiment {

  datatype Label = Positive | Negative | Neutral

  /** The compound score at or beyond which a review is no longer neutral. */
  const Threshold: real := 0.05

  /** `get_sentiment_label(score)`: the thresholds are inclusive on both
      sides, and every score gets exactly one label. */
  function LabelOf(score: real): (l: Label)
    ensures l == Positive <==> score >= Threshold
    ensures l == Negative <==> score <= -Threshold
    ensures l == Neutral <==> -Threshold < score < Threshold
  {
    if score >= 0.05 then Positive
    else if score <= -0.05 then Negative
    else Neutral
  }

  /** The label as it is written to the `sentiment` column. */
  function LabelName(l: Label): (s: string)
    ensures s in {"positive", "negative", "neutral"}
    ensures s == "positive" <==> l.Positive?
    ensures s == "negative" <==> l.Negative?
    ensures s == "neutral" <==> l.Neutral?
  {
    match l
    case Positive => "positive"
    case Negative => "negative"
    case Neutral => "neutral"
  }

  /** Python's `int(x)` on a float: truncation toward zero, which is the
      floor for non-negative `x` and the ceiling for negative `x`. */
  function Truncate(x: real): (r: int)
    ensures x >= 0.0 ==> 0 <= r && r as real <= x < r as real + 1.0
    ensures x < 0.0 ==> r <= 0 && r as real - 1.0 < x <= r as real
  {
    if x >= 0.0 then x.Floor else -((-x).Floor)
  }

  lemma TruncateMonotone(x: real, y: real)
    requires x <= y
    ensures Truncate(x) <= Truncate(y)
  {
    if x >= 0.0 {
      assert x.Floor <= y.Floor;
    } else if y < 0.0 {
      assert (-y).Floor <= (-x).Floor;
    }
  }

  /** `convert_to_percentage(score)`: `(score + 1) * 50` truncated toward zero
      and not clamped; scores in [-1, 1] land in [0, 100]. */
  function Percentage(score: real): (p: int)
    ensures -1.0 <= score <= 1.0 ==> 0 <= p <= 100
    ensures score >= -1.0 ==> p as real <= (score + 1.0) * 50.0 < p as real + 1.0
  {
    Truncate((score + 1.0) * 50.0)
  }

  /** A higher compound score never gives a lower percentage. */
  lemma PercentageMonotone(a: real, b: real)
    requires a <= b
    ensures Percentage(a) <= Percentage(b)
  {
    TruncateMonotone((a + 1.0) * 50.0, (b + 1.0) * 50.0);
  }

  /** The anchors of the affine map: -1 gives 0, 0 gives 50, 1 gives 100. */
  lemma PercentageAnchors()
    ensures Percentage(-1.0) == 0 && Percentage(0.0) == 50 && Percentage(1.0) == 100
  {
  }

  /** There is no clamping: a score above 1 maps above 100. */
  lemma PercentageUnclamped()
    ensures Percentage(2.0) == 150
  {
  }

  /** Truncation is toward zero, not floor: a score just below -1 maps to 0,
      where a floor would give -1. */
  lemma PercentageTruncatesTowardZero()
    ensures Percentage(-1.01) == 0
    ensures ((-1.01 + 1.0) * 50.0).Floor == -1
  {
  }

  /** Label and percentage agree: a positive label means at least 52, a
      negative one at most 47, and a neutral one a value in [47, 52]. */
  lemma LabelAgreesWithPercentage(score: real)
    ensures LabelOf(score) == Positive ==> Percentage(score) >= 52
    ensures LabelOf(score) == Negative ==> Percentage(score) <= 47
    ensures LabelOf(score) == Neutral ==> 47 <= Percentage(score) <= 52
  {
    if LabelOf(score) == Positive {
      PercentageMonotone(0.05, score);
      assert Percentage(0.05) == 52;
    } else if LabelOf(score) == Negative {
      PercentageMonotone(score, -0.05);
      assert Percentage(-0.05) == 47;
    } else {
      PercentageMonotone(-0.05, score);
      PercentageMonotone(score, 0.05);
      assert Percentage(-0.05) == 47;
      assert Percentage(0.05) == 52;
    }
  }

  /** The two columns the labelling job writes for one review. */
  datatype Scored = Scored(sentiment: string, sentimentScore: int)

  /** One row of the labelling job: the `sentiment_score` and `sentiment`
      columns derived from the review's compound score. */
  function ScoreReview(compound: real): (s: Scored)
    requires -1.0 <= compound <= 1.0
    ensures 0 <= s.sentimentScore <= 100
    ensures s.sentiment == "positive" <==> compound >= Threshold
    ensures s.sentiment == "negative" <==> compound <= -Threshold
    ensures s.sentiment == "neutral" <==> -Threshold < compound < Threshold
    ensures s.sentimentScore == Percentage(compound)
    ensures s.sentiment == "positive" ==> s.sentimentScore >= 52
    ensures s.sentiment == "negative" ==> s.sentimentScore <= 47
    ensures s.sentiment == "neutral" ==> 47 <= s.sentimentScore <= 52
  {
    LabelAgreesWithPercentage(compound);
    Scored(LabelName(LabelOf(compound)), Percentage(compound))
  }
}

=== FILE: tmdb.dfy ===
/** The pure part of `fetch_tmdb_data` (src/app.py): choosing the first search
    result and extracting link, release date, runtime, language, cast and
    director from the decoded details and credits responses. The HTTP
    requests themselves are not modelled; the decoded responses are inputs
    (a missing JSON key is `None`). */
module Tmdb {
  import opened Base
  import opened Chars

  datatype SearchHit = SearchHit(id: int)

  datatype CrewEntry = CrewEntry(name: string, job: string)

  datatype CastEntry = CastEntry(name: string)

  /** The `runtime` value of a details response: minutes, or JSON `null`. */
  datatype RuntimeValue = RuntimeMinutes(minutes: int) | RuntimeNull

  /** The keys of a decoded details response that are read. */
  datatype Details = Details(
    releaseDate: Option<string>,
    runtime: Option<RuntimeValue>,
    originalLanguage: Option<string>)

  /** The keys of a decoded credits response that are read. */
  datatype Credits = Credits(crew: Option<seq<CrewEntry>>, cast: Option<seq<CastEntry>>)

  /** The runtime entry of the extracted details: the response's value, or
      the placeholder string "N/A" when the key was absent. */
  datatype RuntimeField = RuntimeNA | RuntimeGiven(value: RuntimeValue)

  /** The dictionary `fetch_tmdb_data` returns. */
  datatype MovieDetails = MovieDetails(
    tmdbLink: string,
    releaseDate: string,
    runtime: RuntimeField,
    language: string,
    cast: string,
    director: string)

  const NotAvailable: string := "N/A"

  const MovieLinkPrefix: string := "https://www.themoviedb.org/movie/"

  /** The most cast members named on a recommendation. */
  const MaxCast: nat := 5

  /** A dictionary lookup with a default for a missing key. */
  function GetOr<T>(o: Option<T>, default: T): (v: T)
    ensures o.Some? ==> v == o.value
    ensures o.None? ==> v == default
  {
    match o
    case Some(x) => x
    case None => default
  }

  /** The director of src/app.py line 54: the name of the first crew entry
      whose job is "Director", else "N/A". */
  function FirstDirector(crew: seq<CrewEntry>): (name: string)
    ensures (forall i :: 0 <= i < |crew| ==> crew[i].job != "Director") ==> name == NotAvailable
    ensures forall i :: 0 <= i < |crew| && crew[i].job == "Director"
                        && (forall j :: 0 <= j < i ==> crew[j].job != "Director")
                        ==> name == crew[i].name
    decreases |crew|
  {
    if crew == [] then NotAvailable
    else if crew[0].job == "Director" then crew[0].name
    else
      var name := FirstDirector(crew[1..]);
      assert forall i :: 1 <= i < |crew| ==> crew[i] == crew[1..][i - 1];
      name
  }

  function CastNames(cast: seq<CastEntry>): (names: seq<string>)
    ensures |names| == |cast|
    ensures forall i :: 0 <= i < |cast| ==> names[i] == cast[i].name
  {
    seq(|cast|, i requires 0 <= i < |cast| => cast[i].name)
  }

  /** The cast line of src/app.py lines 55 and 63: the names of the first
      five billed members joined by ", ", or "N/A" for an empty cast. */
  function CastLine(cast: seq<CastEntry>): (line: string)
    ensures |cast| == 0 ==> line == NotAvailable
    ensures |cast| > 0 ==> line == JoinWith(", ", CastNames(cast[..Min(MaxCast, |cast|)]))
  {
    var top := cast[..Min(MaxCast, |cast|)];
    if |top| == 0 then NotAvailable else JoinWith(", ", CastNames(top))
  }

  /** Only the first five billed members matter: billing below the fifth
      place never changes the cast line. */
  lemma CastLineTopFive(cast: seq<CastEntry>, more: seq<CastEntry>)
    requires |cast| >= MaxCast
    ensures CastLine(cast + more) == CastLine(cast)
  {
    assert (cast + more)[..MaxCast] == cast[..MaxCast];
  }

  /** The TMDB page of a movie (src/app.py line 59): the movie prefix
      followed by the id in decimal. */
  function MovieLink(movieId: int): (link: string)
    ensures |MovieLinkPrefix| < |link|
    ensures link[..|MovieLinkPrefix|] == MovieLinkPrefix
    ensures link[|MovieLinkPrefix|..] == IntToString(movieId)
  {
    var link := MovieLinkPrefix + IntToString(movieId);
    assert link[|MovieLinkPrefix|..] == IntToString(movieId);
    link
  }

  /** The language entry (src/app.py line 62), upper-cased: no lowercase
      letters, "N/A" when the key is absent, and otherwise the response's
      code up to case. */
  function LanguageOf(language: Option<string>): (l: string)
    ensures forall i :: 0 <= i < |l| ==> !IsLower(l[i])
    ensures language.None? ==> l == NotAvailable
    ensures language.Some? ==> |l| == |language.value| && Lower(l) == Lower(language.value)
  {
    assert Upper(NotAvailable) == NotAvailable;
    Upper(GetOr(language, NotAvailable))
  }

  /** The runtime entry (src/app.py line 61): the placeholder exactly when
      the key is absent. */
  function RuntimeOf(runtime: Option<RuntimeValue>): (f: RuntimeField)
    ensures runtime.None? <==> f == RuntimeNA
    ensures runtime.Some? ==> f == RuntimeGiven(runtime.value)
  {
    match runtime
    case None => RuntimeNA
    case Some(v) => RuntimeGiven(v)
  }

  /** The field extraction of lines 54-65 for the movie `movieId`. */
  function MovieDetailsOf(movieId: int, details: Details, credits: Credits): (m: MovieDetails)
    ensures m.tmdbLink == MovieLink(movieId)
    ensures details.releaseDate.None? ==> m.releaseDate == NotAvailable
    ensures details.releaseDate.Some? ==> m.releaseDate == details.releaseDate.value
    ensures m.runtime == RuntimeOf(details.runtime)
    ensures m.language == LanguageOf(details.originalLanguage)
    ensures credits.crew.None? ==> m.director == NotAvailable
    ensures credits.crew.Some? ==> m.director == FirstDirector(credits.crew.value)
    ensures credits.cast.None? ==> m.cast == NotAvailable
    ensures credits.cast.Some? ==> m.cast == CastLine(credits.cast.value)
  {
    MovieDetails(
      MovieLink(movieId),
      GetOr(details.releaseDate, NotAvailable),
      RuntimeOf(details.runtime),
      LanguageOf(details.originalLanguage),
      CastLine(GetOr(credits.cast, [])),
      FirstDirector(GetOr(credits.crew, [])))
  }

  /** `fetch_tmdb_data` given the decoded search response (`None` when it
      has no "results" key) and the details and credits the API returns for
      each movie id: `None` exactly when there is no result, otherwise the
      details of the FIRST result. */
  function FetchTmdbData(results: Option<seq<SearchHit>>, detailsFor: int -> Details, creditsFor: int -> Credits): (r: Option<MovieDetails>)
    ensures r.None? <==> results.None? || |results.value| == 0
    ensures r.Some? ==> var id := results.value[0].id;
                        r.value == MovieDetailsOf(id, detailsFor(id), creditsFor(id))
  {
    if results.None? || |results.value| == 0 then None
    else
      var id := results.value[0].id;
      Some(MovieDetailsOf(id, detailsFor(id), creditsFor(id)))
  }
}
